=== FILE: README.md ===
# Garden defence rules in Dafny

A model of the game rules of a small Phaser tower-defence game. The player buys
marigold and garlic plants with compost and places them on a 5×9 soil grid. Aphids
spawn at the right edge of a lane. The game is over when an aphid crosses x = 150.

In the game all rules live inside Phaser callbacks in `main.js`. Here they are
pure transitions over one immutable `Game.State`. The state holds the compost
balance, the grid of plant kinds, the selected card, the game-over flag, the
marigold and garlic lists, and the pest list. Each pest has x, y, health, speed,
velocity and an alive flag.

- `Config`: the constants (board layout, prices, income, pest stats, breach line).
- `Board`: the grid as a 5×9 subset type, and the pixel-to-cell mapping
  `floor((p - origin) / 90)`.
- `Entities`: plant and pest records, plus the JavaScript `indexOf` and
  `splice(start, 1)` used by the garlic handler.
- `Game`: one function per handler.
  - Card click: `SelectCard`.
  - Board click: `Click`.
  - Compost timer: `CompostTick`.
  - Spawn timer: `Spawn`.
  - Marigold collider: `MarigoldContact`.
  - Garlic overlap: `GarlicContact`.
  - Per-frame update: `Update`.
  - `Advance` stands in for the physics engine moving bodies: each live pest moves
    by velocity × dt.
  - `Valid` is the invariant of reachable states.
- `Machine`: an `Event` per handler firing, `Step`, runs over event sequences, and
  the invariant lemmas. These cover solvency, the permanent game-over flag,
  freezing after game over, and grid cells that are never cleared.
- `Marching` and `Wreckage`: the two findings below.

Some of the code's behaviour is easy to miss. The model follows the code:

- Each grid cell holds a plant kind, not a plant identity.
- Used-up garlic leaves its cell marked, so that cell can never be planted again.
- A destroyed pest stays in the pest list.
- Placement does not re-check the price.
- The board's last column spans pixels [920, 1010), beyond the 900-pixel canvas,
  so no press can plant there and column 7 is the rightmost reachable cell.
- A rejected placement is a silent no-op, not an error code.
- Card clicks still work after game over. So do the physics contacts, since nothing
  in the handlers checks the flag.
- A destroyed pest has no physics body. The frame's velocity loop reads each
  pest's body, so a frame stops at the first destroyed pest. Its later pests keep
  their velocity, and the breach check does not run in that frame.
- The garlic handler removes its plant with `splice(indexOf(g), 1)`. The model keeps
  the case where `g` is no longer listed. There, `indexOf` gives -1 and the last
  garlic is removed.

## Model

| member | source | states |
|---|---|---|
| Config.Cost | main.js:32-35 | both cards cost 50, the whole starting compost |
| Game.Init | main.js:23-60 | the game starts with 50 compost, an empty 5×9 grid, no card selected, the game running, and no plants or pests |
| Board.Empty | main.js:55-60 | every one of the 5×9 cells starts empty |
| Board.Put | main.js:113 | writing a kind into a cell sets that cell and leaves every other cell as it was |
| Board.CellIndex | main.js:91-92 | the computed index is the unique i whose 90-pixel cell [origin + 90i, origin + 90(i+1)) contains the pixel, i.e. Math.floor of the quotient |
| Board.CellCornersMapBack | main.js:91-98 | the pixel corner a plant or pest is drawn at maps back to its own row and column, so the lane scan recovers a pest's spawn lane |
| Board.OnBoardIffInsideRectangle | main.js:91-94 | the row/column bounds test passes exactly for pixels inside the rectangle [200, 1010) × [120, 570) |
| Entities.IndexOf | main.js:161 | indexOf gives -1 exactly when the value is absent, and otherwise the first position holding it |
| Entities.SpliceStart | main.js:161 | splice's start is the requested one when it lies in [0, n] and counts back from the end when it is negative |
| Entities.SpliceOne | main.js:161 | splice(start, 1) removes the one element at the normalised start, if any, and keeps the rest in order |
| Entities.SpliceAt | main.js:161 | splice(k, 1) at a position inside the list cuts out exactly the element at k and keeps the rest in order |
| Entities.RemoveFound | main.js:161 | for a listed garlic, splice(indexOf(g), 1) removes exactly one copy of g |
| Entities.SpliceOut | main.js:161 | splice(indexOf(v), 1) as one call: a listed v loses its first occurrence with the rest in order and one copy fewer; an unlisted v drops the last element; an empty list stays empty |
| Entities.RemoveMissing | main.js:161 | for an unlisted garlic, splice(indexOf(g), 1) removes the last element |
| Entities.SpliceKeepsDistinct | main.js:161 | the removal keeps the list duplicate-free and adds nothing new |
| Game.SelectCard | main.js:76-83 | a card is selected iff compost covers its price, otherwise nothing changes; nothing but the selection ever changes, and solvency is preserved |
| Game.Click | main.js:87-117 | unless the game runs, a card is selected, the click maps into the board and the cell is empty, nothing changes; otherwise exactly the price is paid, exactly that cell gets the kind, the plant is appended to the marigold list (health 100) or the garlic list, the selection is cleared, and pests and the flag are untouched |
| Game.ClickOffBoardIgnored | main.js:91-94 | a click outside the board rectangle changes nothing, whatever the balance |
| Game.CompostTick | main.js:120-129 | the compost timer adds exactly 25 while the game runs, is a no-op after game over, and touches nothing but compost |
| Game.Spawn | main.js:132-144 | while the game runs, exactly one pest is appended: x 900, y 120 + 90·row, health 50, speed 20, velocity 0, alive, and its y maps back to the lane; after game over nothing happens |
| Game.MarigoldContact | main.js:147-152 | the touching pest's velocity becomes 0 and nothing else changes (no damage either way) |
| Game.GarlicContact | main.js:154-162 | the pest's health drops by exactly 50, and it is destroyed iff the new health is at most 0. A listed garlic's first occurrence is cut out, with the rest kept in order. An unlisted garlic removes the last one, and an empty list stays empty. The grid and everything else are unchanged |
| Game.Advance | main.js:169-172 | a pest's x changes only through the velocity set here: a live pest moves by velocity × dt, and a stopped or destroyed one stays put (this stands in for the physics engine's integration) |
| Game.FirstDestroyed | main.js:169-170 | the position of the first destroyed pest, where the velocity loop stops; every pest before it is alive |
| Game.SteerUntilDestroyed | main.js:169-172 | a standing pest keeps velocity 0; a moving pest before the first destroyed pest gets velocity -speed; that pest and every later one are unchanged; no other field changes |
| Game.AnyBreach | main.js:186-191 | the scan finds a breach iff some pest's x is below 150 |
| Game.Update | main.js:165-191 | after game over a frame is a no-op. Otherwise the flag becomes true iff every pest is alive and some pest is left of x = 150, since a destroyed pest stops the frame before the breach check. Zero velocities stay zero. A non-zero velocity becomes -speed when no destroyed pest comes before it. Compost, grid, selection and plants are untouched, because the marigold scan has no effect |
| Machine.Step | main.js:76-191 | no event clears the game-over flag or an occupied cell; after game over no event changes compost, the grid or the pest count |
| Machine.InitValid | main.js:23-60 | the starting state (50 compost, empty grid, nothing selected, empty lists) satisfies every invariant |
| Machine.ClickPreservesValid | main.js:94-115 | placement keeps the balance non-negative, and keeps every plant on a cell of its kind with no two on one cell, because it only plants on empty cells |
| Machine.GarlicContactPreservesValid | main.js:154-162 | the garlic handler keeps every listed plant on its cell and the lists duplicate-free |
| Machine.StepPreservesValid | main.js:76-191 | every handler preserves the invariants: solvency, plants on matching cells, pests on their lane's line y = 120 + 90·row at speed 20 with velocity 0 or -20 |
| Machine.RunPreservesValid | main.js:76-191 | the invariants hold after any sequence of events |
| Machine.AlwaysSolvent | main.js:76-126 | in every game, compost is never negative and a selected card is always affordable, although placement does not re-check the price |
| Machine.GameOverIsPermanent | main.js:186-188 | once set, the game-over flag is never cleared |
| Machine.FrozenAfterGameOver | main.js:88-166 | after game over, compost, the grid and the number of pests never change again |
| Machine.OccupiedCellsStay | main.js:94-161 | an occupied cell keeps its kind for the rest of the game, including after its garlic is used up |
| Machine.StepKeepsLastColumnEmpty | main.js:87-113 | a press on the 900×600 canvas (main.js:4-5) never plants in column 8, so no event fills that column |
| Machine.LastColumnStaysEmpty | main.js:87-113 | along any run, column 8 of every lane stays empty |
| Machine.StepKeepsStopped | main.js:146-172 | no single event restarts a pest with velocity 0, moves it, or drops it from the list |
| Machine.StoppedPestStaysStopped | main.js:147-172 | a pest whose velocity is 0, for instance after touching a marigold, keeps velocity 0 and its x for the rest of any game |
| Machine.CompostAfterTicks | main.js:120-129 | n compost ticks of a running game add exactly 25·n |
| Marching.StepKeepsStill | main.js:135-172 | if every pest stands at x 900 with velocity 0 in a running game, this still holds after any event |
| Marching.PestsNeverMove | main.js:135-172 | as written, along any run no pest ever leaves x = 900 |
| Marching.GameNeverEnds | main.js:186-188 | as written, the game-over flag is never set in any game |
| Marching.SpawnedPestStaysPut | main.js:137-171 | as written, a fresh pest is still at x 900 after a frame and any amount of physics time |
| Marching.SpawnMarching | main.js:135-140 | the corrected spawn: one pest appended as before, but walking left at -speed |
| Marching.FrameKeepsWalker | main.js:169-172 | a frame leaves a pest walking at -20 exactly as it was, whether the loop reaches it or stops earlier |
| Marching.MarchingPestAdvances | main.js:169-172 | with the corrected spawn, the pest keeps velocity -20 through a frame and moves left by 20 per time unit |
| Marching.MarchingPestBreaches | main.js:186-188 | with the corrected spawn, an unopposed pest crosses the breach line after 38 time units, and the next frame ends the game |
| Wreckage.StepKeepsWrecked | main.js:156-170 | in a running game, a destroyed pest stays in the list, stays destroyed, and the game keeps running after any event |
| Wreckage.NoGameOverAfterKill | main.js:156-191 | as written, once a pest has been destroyed, the game-over flag is never set along any run |
| Wreckage.SteerLive | main.js:169-172 | the corrected velocity rule: destroyed pests are left alone, and live ones are steered |
| Wreckage.LiveBreach | main.js:186-191 | the corrected scan finds a breach iff some live pest's x is below 150 |
| Wreckage.UpdateLive | main.js:165-191 | the corrected frame: after game over nothing happens; otherwise the flag becomes true iff some live pest is left of x = 150, and live moving pests get -speed |
| Wreckage.GarlicKillWrecks | main.js:132-161 | as written, the game Init, SpawnTimer(0), CardClick(Garlic), BoardClick(830, 120), GarlicTouch(0, garlic at lane 0 column 7) is a valid run that leaves pest 0 destroyed in a running game, so every later frame stops at it |
| Wreckage.KillHidesBreach | main.js:156-191 | the as-written frame, after the corrected spawn: a walking pest at x = 140 next to a pest killed by garlic, and the frame leaves the game running |
| Wreckage.LiveFrameSeesBreach | main.js:186-188 | with the corrected frame, that same state ends the game |

## Findings

| source | as written | input that shows it | evidently intended | confidence | as-written member | corrected member |
|---|---|---|---|---|---|---|
| main.js:137-140, 170 | the spawned aphid never gets a velocity, and `update` skips pests whose velocity is 0, so no pest ever moves and the game can never be lost | any spawn, e.g. `SpawnTimer(0)`, then any frames and physics time: the pest stays at x = 900 | the aphid starts walking at `-speed` when it spawns; `update` then keeps walking pests walking, and a marigold contact stops them | high: this depends on arcade bodies starting at velocity 0. Not executed | Marching.PestsNeverMove | Marching.SpawnMarching |
| main.js:158, 170 | `pest.destroy()` drops the sprite's physics body, but the pest stays in `pests`. Every later frame reads `pest.body.velocity.x` for it and throws, so the frame never reaches the breach check and the game can no longer end | as written, any garlic kill makes every later frame throw at main.js:170, e.g. `SpawnTimer(0)`, a garlic bought and placed in lane 0, then `GarlicTouch(0, g)` (`Wreckage.GarlicKillWrecks`). With pests fixed at x = 900, a kill needs a garlic in column 7 (x = 830), the rightmost cell on the canvas, to overlap the pest; whether the sprites reach each other depends on their sizes, which the model does not know. The lost game over shows only once pests walk, which is the first row's correction: a walking pest then crosses x = 150 unnoticed (`Wreckage.KillHidesBreach`) | the velocity rule and the breach check skip destroyed pests, or destroyed pests are removed from `pests` | high: this depends on Phaser's `destroy()` setting `body` to undefined. Not executed | Wreckage.NoGameOverAfterKill | Wreckage.UpdateLive |

`Machine.Step` keeps the spawn and the frame as written, because it models the code.
`Marching.SpawnMarching` is the corrected spawn. `Marching.MarchingPestAdvances`
and `Marching.MarchingPestBreaches` prove the intended behaviour about it.
`Wreckage.UpdateLive` is the corrected frame. With both corrections,
`Wreckage.LiveFrameSeesBreach` shows that a kill no longer hides a breach.

## Left out

- Phaser setup, `preload`, asset loading, sprite scaling, the compost text, card
  images, the "GAME OVER" banner and `console.log` are presentation only and are
  not modelled.
- Collision and overlap detection belong to the physics library. They are events
  naming a pest by its index, plus a marigold index or a garlic value.
  `Machine.Enabled` only requires that these indices exist.
- Continuous velocity integration is floating point and belongs to the physics
  library. `Game.Advance` is an integer stand-in: a live pest's x moves by
  velocity × dt, and a destroyed pest stays put. Collision separation is not
  modelled.
- Reading the body of a destroyed sprite throws a TypeError. The model treats this
  as the end of that frame's work: pests from the first destroyed one onwards keep
  their velocity, and the marigold scan and breach check are skipped. It assumes
  Phaser still calls `update` on later frames, which then stop at the same pest.
  Whether Phaser's game loop survives the exception is library behaviour and is
  not modelled. As a result, no game with a destroyed pest ever ends
  (`Wreckage.NoGameOverAfterKill`).
- Physics contacts are not filtered for destroyed pests. Phaser stops reporting
  contacts for a body it has removed, but the model lets the environment deliver
  any contact.
- `Phaser.Math.Between(0, 4)` is replaced by a lane parameter constrained to [0, 4].
- Timer scheduling (`this.time.addEvent`) is not modelled. Each firing is an event,
  and any interleaving is allowed.
- Pointer coordinates are integers here, whereas Phaser delivers floating point
  values. The floor-division mapping is exact for integers. `Machine.Enabled`
  bounds a press to the 900×600 canvas; `Game.Click` itself accepts any pixel.
- Sprite sizes and overlap geometry are not modelled, so a garlic contact may name
  any listed pest, whether or not the two sprites could touch.
- The `if (plantSprite)` test at main.js:110 always passes here, because the
  selected card is a closed `Kind` with exactly two values.
- The marigold action loop (main.js:175-183) has no effect. `Game.Update` states
  that it leaves plants unchanged.

=== FILE: board.dfy ===
/** The planting grid: a 5×9 table whose cells hold the kind of plant placed there, if any. */
module Board {

  import opened Optional
  import opened Config

  /** A cell records the plant kind written into it (not which plant), or nothing. */
  type Cell = Option<Kind>

  predicate Shaped(g: seq<seq<Cell>>) {
    |g| == Rows && forall i :: 0 <= i < |g| ==> |g[i]| == Cols
  }

  /** The grid, row-major: g[row][col]. */
  type Grid = g: seq<seq<Cell>> | Shaped(g) witness seq(5, _ => seq(9, _ => None))

  predicate InBounds(row: int, col: int) {
    0 <= row < Rows && 0 <= col < Cols
  }

  /** The grid as the scene builds it: every cell empty. */
  function Empty(): (g: Grid)
    ensures forall r, c :: InBounds(r, c) ==> g[r][c] == None
  {
    seq(Rows, _ => seq(Cols, _ => None))
  }

  /** Writes kind k into one cell; every other cell keeps its content. */
  function Put(g: Grid, row: int, col: int, k: Kind): (g': Grid)
    requires InBounds(row, col)
    ensures g'[row][col] == Some(k)
    ensures forall r, c :: InBounds(r, c) && (r, c) != (row, col) ==> g'[r][c] == g[r][c]
  {
    g[row := g[row][col := Some(k)]]
  }

  /** The cell index a pixel coordinate falls in, along one axis whose first
      cell starts at `origin`: floor((p - origin) / CellSize). Dafny's `/` with
      a positive divisor rounds toward minus infinity, as Math.floor does. */
  function CellIndex(p: int, origin: int): (i: int)
    ensures origin + i * CellSize <= p < origin + (i + 1) * CellSize
  {
    (p - origin) / CellSize
  }

  /** The lane a pixel row belongs to. */
  function RowOf(py: int): int {
    CellIndex(py, GridTop)
  }

  /** The column a pixel column belongs to. */
  function ColOf(px: int): int {
    CellIndex(px, GridLeft)
  }

  /** The y a sprite in lane `row` is given: under the floor mapping it is the
      top edge of the lane's cells (Phaser draws the sprite centred on it). */
  function CellTop(row: int): int {
    GridTop + row * CellSize
  }

  /** The x a plant in column `col` is given: under the floor mapping it is
      the left edge of the column's cells. */
  function CellLeft(col: int): int {
    GridLeft + col * CellSize
  }

  /** The pixel-to-cell mapping is the left inverse of the cell-to-pixel one:
      a sprite placed at a cell's corner maps back to that cell. */
  lemma CellCornersMapBack(row: int, col: int)
    ensures RowOf(CellTop(row)) == row
    ensures ColOf(CellLeft(col)) == col
  {
    var r := RowOf(CellTop(row));
    assert GridTop + r * CellSize <= GridTop + row * CellSize < GridTop + (r + 1) * CellSize;
    var c := ColOf(CellLeft(col));
    assert GridLeft + c * CellSize <= GridLeft + col * CellSize < GridLeft + (c + 1) * CellSize;
  }

  /** A click lands on the board exactly when its pixel lies inside the
      810×450 rectangle whose corner is (200, 120). */
  lemma OnBoardIffInsideRectangle(px: int, py: int)
    ensures InBounds(RowOf(py), ColOf(px)) <==>
              GridTop <= py < GridTop + Rows * CellSize && GridLeft <= px < GridLeft + Cols * CellSize
  {
    var r, c := RowOf(py), ColOf(px);
    assert GridTop + r * CellSize <= py < GridTop + (r + 1) * CellSize;
    assert GridLeft + c * CellSize <= px < GridLeft + (c + 1) * CellSize;
    if 0 <= r < Rows {
      assert GridTop <= py < GridTop + Rows * CellSize;
    }
    if 0 <= c < Cols {
      assert GridLeft <= px < GridLeft + Cols * CellSize;
    }
  }

}

=== FILE: config.dfy ===
/** The fixed numbers of the garden: board layout, prices, pest stats and the breach line. */
module Config {

  /** The two plant cards the player can pick. */
  datatype Kind = Marigold | Garlic

  // Board layout: 5 lanes of 9 cells, each cell 90 pixels square, the
  // top-left cell's corner at pixel (200, 120).
  const Rows: int := 5
  const Cols: int := 9
  const CellSize: int := 90
  const GridLeft: int := 200
  const GridTop: int := 120

  // The game canvas is 900×600 pixels; pointer presses land inside it. The
  // board's last column, [920, 1010), lies beyond its right edge.
  const CanvasWidth: int := 900
  const CanvasHeight: int := 600

  // Economy.
  const StartCompost: int := 50
  const CompostIncome: int := 25

  // Plants and pests.
  const MarigoldHealth: int := 100
  const PestHealth: int := 50
  const PestSpeed: int := 20
  const SpawnX: int := 900
  const GarlicDamage: int := 50

  /** A pest whose x falls below this line has broken through. */
  const BreachX: int := 150

  /** The price table of the plant cards: each card costs exactly the
      starting compost, so either can be bought at once and empties the purse. */
  function Cost(k: Kind): (c: int)
    ensures c == StartCompost
  {
    match k
    case Marigold => 50
    case Garlic => 50
  }

}

=== FILE: entities.dfy ===
/** The sprites the rules read and write, reduced to the fields the rules use,
    and the two JavaScript array operations the garlic handler relies on. */
module Entities {

  /** A marigold on the board; it blocks pests and keeps full health (no damage is dealt). */
  datatype MarigoldPlant = MarigoldPlant(row: int, col: int, health: int)

  /** A single-use garlic bulb on the board. */
  datatype GarlicPlant = GarlicPlant(row: int, col: int)

  /** An aphid: position (x, y) in pixels, health, speed, horizontal velocity,
      and whether its sprite is still alive (destroyed pests stay in the pest list). */
  datatype Pest = Pest(x: int, y: int, health: int, speed: int, velocity: int, alive: bool)

  predicate Distinct<T(==)>(xs: seq<T>) {
    forall i, j :: 0 <= i < j < |xs| ==> xs[i] != xs[j]
  }

  /** Array.prototype.indexOf: the first position holding v, or -1. */
  function IndexOf<T(==)>(xs: seq<T>, v: T): (i: int)
    ensures -1 <= i < |xs|
    ensures i == -1 <==> v !in xs
    ensures 0 <= i ==> xs[i] == v && v !in xs[..i]
  {
    if xs == [] then -1
    else if xs[0] == v then 0
    else
      var j := IndexOf(xs[1..], v);
      assert xs[1..][..j + 1] == xs[..j + 2][1..] by {
        if 0 <= j { assert xs[1..][..j + 1] == xs[1..j + 2]; }
      }
      if j == -1 then -1 else j + 1
  }

  /** The position Array.prototype.splice actually starts at, for an array of
      length n and a requested start: negative starts count back from the end
      (clamped at 0), positive ones are clamped at n. */
  function SpliceStart(n: nat, start: int): (k: nat)
    ensures k <= n
    ensures 0 <= start <= n ==> k == start
    ensures start < 0 && 0 <= n + start ==> k == n + start
    ensures start > n ==> k == n
    ensures n + start < 0 ==> k == 0
  {
    if start < 0 then (if n + start < 0 then 0 else n + start)
    else if start > n then n
    else start
  }

  /** xs.splice(start, 1): removes the one element at the normalised start, if
      there is one there. */
  function SpliceOne<T>(xs: seq<T>, start: int): (r: seq<T>)
    ensures var k := SpliceStart(|xs|, start);
      && (k < |xs| ==> |r| == |xs| - 1 && r[..k] == xs[..k] && r[k..] == xs[k + 1..])
      && (k == |xs| ==> r == xs)
    ensures multiset(r) <= multiset(xs)
  {
    var k := SpliceStart(|xs|, start);
    if k < |xs| then
      assert xs == xs[..k] + [xs[k]] + xs[k + 1..];
      xs[..k] + xs[k + 1..]
    else xs
  }

  /** splice(k, 1) at a position inside the list cuts out exactly the element there. */
  lemma SpliceAt<T>(xs: seq<T>, k: int)
    requires 0 <= k < |xs|
    ensures SpliceOne(xs, k) == xs[..k] + xs[k + 1..]
  {
    var r := SpliceOne(xs, k);
    assert r[..k] == xs[..k] && r[k..] == xs[k + 1..];
    assert r == r[..k] + r[k..];
  }

  lemma CutMultiset<T>(xs: seq<T>, k: int)
    requires 0 <= k < |xs|
    ensures multiset(xs[..k] + xs[k + 1..]) + multiset{xs[k]} == multiset(xs)
  {
    var front, back := xs[..k], xs[k + 1..];
    assert xs == front + [xs[k]] + back;
  }

  /** garlicPlants.splice(garlicPlants.indexOf(g), 1) removes exactly one copy
      of g when g is present: the list loses one element, and that element is g. */
  lemma RemoveFound<T>(xs: seq<T>, v: T)
    requires v in xs
    ensures var r := SpliceOne(xs, IndexOf(xs, v));
      |r| == |xs| - 1 && multiset(r) + multiset{v} == multiset(xs)
  {
    var k := IndexOf(xs, v);
    SpliceAt(xs, k);
    CutMultiset(xs, k);
  }

  /** When g is absent, indexOf yields -1 and splice(-1, 1) removes the LAST
      element of a non-empty list. */
  lemma RemoveMissing<T>(xs: seq<T>, v: T)
    requires v !in xs
    ensures xs != [] ==> SpliceOne(xs, IndexOf(xs, v)) == xs[..|xs| - 1]
    ensures xs == [] ==> SpliceOne(xs, IndexOf(xs, v)) == []
  {
    if xs != [] {
      var r := SpliceOne(xs, -1);
      assert r[..|xs| - 1] == xs[..|xs| - 1];
    }
  }

  /** xs.splice(xs.indexOf(v), 1): cuts out the first v, keeping the rest in
      order; when v is absent it cuts out the last element instead. */
  function SpliceOut<T(==)>(xs: seq<T>, v: T): (r: seq<T>)
    ensures v in xs ==> |r| == |xs| - 1 && multiset(r) + multiset{v} == multiset(xs)
    ensures v in xs ==> var k := IndexOf(xs, v); r == xs[..k] + xs[k + 1..]
    ensures v !in xs && xs != [] ==> r == xs[..|xs| - 1]
    ensures xs == [] ==> r == []
  {
    var k := IndexOf(xs, v);
    var r := SpliceOne(xs, k);
    if v in xs then
      RemoveFound(xs, v);
      SpliceAt(xs, k);
      assert r == xs[..k] + xs[k + 1..];
      r
    else
      RemoveMissing(xs, v);
      assert k == -1;
      r
  }

  /** Removing one element keeps a list duplicate-free and keeps every
      remaining element one of the originals. */
  lemma SpliceKeepsDistinct<T>(xs: seq<T>, start: int)
    requires Distinct(xs)
    ensures Distinct(SpliceOne(xs, start))
    ensures forall y :: y in SpliceOne(xs, start) ==> y in xs
  {
    var k := SpliceStart(|xs|, start);
    var r := SpliceOne(xs, start);
    if k < |xs| {
      assert r == xs[..k] + xs[k + 1..];
      forall i, j | 0 <= i < j < |r|
        ensures r[i] != r[j]
      {
        var i' := if i < k then i else i + 1;
        var j' := if j < k then j else j + 1;
        assert r[i] == xs[i'] && r[j] == xs[j'];
      }
    }
    forall y | y in r
      ensures y in xs
    {
      assert multiset(r)[y] > 0;
    }
  }

}

=== FILE: game.dfy ===
/** The game rules of the scene: one state record and one pure transition per
    handler the scene registers (card click, board click, the compost and
    spawn timers, the marigold collider, the garlic overlap) plus the per-frame
    update. */
module Game {

  import opened Optional
  import opened Config
  import opened Board
  import opened Entities

  datatype State = State(
    compost: int,
    grid: Grid,
    selected: Option<Kind>,
    gameOver: bool,
    marigolds: seq<MarigoldPlant>,
    garlic: seq<GarlicPlant>,
    pests: seq<Pest>)

  /** The state once the scene has been created: 50 compost, an empty grid,
      no card selected, the game running, and no plants or pests. */
  function Init(): (s: State)
    ensures s.compost == StartCompost && s.selected.None? && !s.gameOver
    ensures forall r, c :: InBounds(r, c) ==> s.grid[r][c] == None
    ensures s.marigolds == [] && s.garlic == [] && s.pests == []
  {
    State(StartCompost, Empty(), None, false, [], [], [])
  }

  // ---------------------------------------------------------------------
  // Invariants of every reachable state

  /** Compost is never negative, and a selected card is always affordable. */
  predicate Solvent(s: State) {
    && s.compost >= 0
    && (s.selected.Some? ==> s.compost >= Cost(s.selected.value))
  }

  /** Every listed marigold stands, at full health, on a cell marked marigold,
      and no two of them share a cell. */
  predicate MarigoldsOnBoard(s: State) {
    && (forall i :: 0 <= i < |s.marigolds| ==>
          && InBounds(s.marigolds[i].row, s.marigolds[i].col)
          && s.grid[s.marigolds[i].row][s.marigolds[i].col] == Some(Marigold)
          && s.marigolds[i].health == MarigoldHealth)
    && Distinct(s.marigolds)
  }

  /** Every listed garlic stands on a cell marked garlic, and no two of them
      share a cell. */
  predicate GarlicOnBoard(s: State) {
    && (forall i :: 0 <= i < |s.garlic| ==>
          && InBounds(s.garlic[i].row, s.garlic[i].col)
          && s.grid[s.garlic[i].row][s.garlic[i].col] == Some(Garlic))
    && Distinct(s.garlic)
  }

  /** A pest sits on its lane's line y = 120 + 90·row, keeps the spawn speed, is either
      stopped or heading left at that speed, and has never gained health. */
  predicate InLane(p: Pest) {
    && 0 <= RowOf(p.y) < Rows
    && p.y == CellTop(RowOf(p.y))
    && p.speed == PestSpeed
    && (p.velocity == 0 || p.velocity == -p.speed)
    && p.health <= PestHealth
  }

  predicate Valid(s: State) {
    && Solvent(s)
    && MarigoldsOnBoard(s)
    && GarlicOnBoard(s)
    && (forall i :: 0 <= i < |s.pests| ==> InLane(s.pests[i]))
  }

  // ---------------------------------------------------------------------
  // Card selection

  /** Clicking a plant card selects it when the player can pay for it, and
      otherwise leaves everything as it was. The game-over flag is not consulted. */
  function SelectCard(s: State, k: Kind): (s': State)
    ensures s.compost >= Cost(k) ==> s'.selected == Some(k)
    ensures s.compost < Cost(k) ==> s' == s
    ensures s' == s.(selected := s'.selected)
    ensures Solvent(s) ==> Solvent(s')
  {
    if s.compost >= Cost(k) then s.(selected := Some(k)) else s
  }

  // ---------------------------------------------------------------------
  // Placement on the board

  /** Everything a board click needs to plant something: the game is running,
      a card is selected, the click maps into the board, and that cell is empty. */
  predicate CanPlace(s: State, px: int, py: int) {
    && !s.gameOver
    && s.selected.Some?
    && InBounds(RowOf(py), ColOf(px))
    && s.grid[RowOf(py)][ColOf(px)] == None
  }

  /** A board click at pixel (px, py). Compost is not checked again here: the
      card could only be selected when it was affordable. */
  function Click(s: State, px: int, py: int): (s': State)
    ensures !CanPlace(s, px, py) ==> s' == s
    ensures CanPlace(s, px, py) ==>
      var k, row, col := s.selected.value, RowOf(py), ColOf(px);
      && s'.compost == s.compost - Cost(k)
      && s'.grid[row][col] == Some(k)
      && (forall r, c :: InBounds(r, c) && (r, c) != (row, col) ==> s'.grid[r][c] == s.grid[r][c])
      && s'.selected == None
      && (k == Marigold ==>
            s'.marigolds == s.marigolds + [MarigoldPlant(row, col, MarigoldHealth)] && s'.garlic == s.garlic)
      && (k == Garlic ==>
            s'.garlic == s.garlic + [GarlicPlant(row, col)] && s'.marigolds == s.marigolds)
      && s'.pests == s.pests
      && s'.gameOver == s.gameOver
  {
    if !CanPlace(s, px, py) then s
    else
      var k := s.selected.value;
      var row := RowOf(py);
      var col := ColOf(px);
      s.(compost := s.compost - Cost(k),
         grid := Put(s.grid, row, col, k),
         selected := None,
         marigolds := if k == Marigold then s.marigolds + [MarigoldPlant(row, col, MarigoldHealth)] else s.marigolds,
         garlic := if k == Garlic then s.garlic + [GarlicPlant(row, col)] else s.garlic)
  }

  /** A click outside the board's pixel rectangle never plants anything,
      whatever the compost and the selection. */
  lemma ClickOffBoardIgnored(s: State, px: int, py: int)
    requires py < GridTop || py >= GridTop + Rows * CellSize || px < GridLeft || px >= GridLeft + Cols * CellSize
    ensures Click(s, px, py) == s
  {
    OnBoardIffInsideRectangle(px, py);
  }

  // ---------------------------------------------------------------------
  // Timers

  /** The compost timer: +25 while the game runs, nothing afterwards. */
  function CompostTick(s: State): (s': State)
    ensures s.gameOver ==> s' == s
    ensures !s.gameOver ==> s'.compost == s.compost + CompostIncome
    ensures s' == s.(compost := s'.compost)
  {
    if s.gameOver then s else s.(compost := s.compost + CompostIncome)
  }

  /** The spawn timer, with the random lane supplied: while the game runs, one
      new aphid appears at the right edge of that lane, standing still. */
  function Spawn(s: State, row: int): (s': State)
    requires 0 <= row < Rows
    ensures s.gameOver ==> s' == s
    ensures !s.gameOver ==>
      && |s'.pests| == |s.pests| + 1
      && s'.pests[..|s.pests|] == s.pests
      && var p := s'.pests[|s.pests|];
         && p.x == SpawnX && p.y == GridTop + row * CellSize
         && RowOf(p.y) == row
         && p.health == PestHealth && p.speed == PestSpeed
         && p.velocity == 0 && p.alive
    ensures s' == s.(pests := s'.pests)
  {
    if s.gameOver then s
    else
      CellCornersMapBack(row, 0);
      s.(pests := s.pests + [Pest(SpawnX, CellTop(row), PestHealth, PestSpeed, 0, true)])
  }

  // ---------------------------------------------------------------------
  // Contacts reported by the physics engine

  /** A pest touching a marigold stops. No damage is exchanged, and the flag
      is not consulted: the physics engine keeps reporting contacts after the end. */
  function MarigoldContact(s: State, pi: int): (s': State)
    requires 0 <= pi < |s.pests|
    ensures |s'.pests| == |s.pests|
    ensures s'.pests[pi] == s.pests[pi].(velocity := 0)
    ensures forall i :: 0 <= i < |s.pests| && i != pi ==> s'.pests[i] == s.pests[i]
    ensures s' == s.(pests := s'.pests)
  {
    s.(pests := s.pests[pi := s.pests[pi].(velocity := 0)])
  }

  /** The garlic burst on one pest: 50 damage, and destruction at 0 health or less. */
  function Burn(p: Pest): (q: Pest)
    ensures q.health == p.health - GarlicDamage
    ensures q.alive <==> p.alive && q.health > 0
    ensures q == p.(health := q.health, alive := q.alive)
  {
    var health := p.health - GarlicDamage;
    p.(health := health, alive := p.alive && health > 0)
  }

  /** A pest overlapping garlic g: the pest loses 50 health and is destroyed
      once its health is 0 or less (it stays in the pest list); the garlic is
      taken out of the garlic list with splice(indexOf(g), 1), whether or not
      the pest died. Its grid cell keeps saying "garlic". */
  function GarlicContact(s: State, pi: int, g: GarlicPlant): (s': State)
    requires 0 <= pi < |s.pests|
    ensures |s'.pests| == |s.pests|
    ensures var p, q := s.pests[pi], s'.pests[pi];
      && q.health == p.health - GarlicDamage
      && (q.alive <==> p.alive && q.health > 0)
      && q == p.(health := q.health, alive := q.alive)
    ensures forall i :: 0 <= i < |s.pests| && i != pi ==> s'.pests[i] == s.pests[i]
    ensures g in s.garlic ==>
      |s'.garlic| == |s.garlic| - 1 && multiset(s'.garlic) + multiset{g} == multiset(s.garlic)
    ensures g in s.garlic ==>
      var k := IndexOf(s.garlic, g); s'.garlic == s.garlic[..k] + s.garlic[k + 1..]
    ensures s.garlic == [] ==> s'.garlic == []
    ensures g !in s.garlic && s.garlic != [] ==> s'.garlic == s.garlic[..|s.garlic| - 1]
    ensures s' == s.(pests := s'.pests, garlic := s'.garlic)
  {
    s.(pests := s.pests[pi := Burn(s.pests[pi])], garlic := SpliceOut(s.garlic, g))
  }

  /** The physics engine's integration over dt time units: every live pest
      moves by its velocity times dt; destroyed pests have no body and stay put. */
  function Advance(s: State, dt: nat): (s': State)
    ensures |s'.pests| == |s.pests|
    ensures forall i :: 0 <= i < |s.pests| ==>
      var p, q := s.pests[i], s'.pests[i];
      && q == p.(x := q.x)
      && (p.alive ==> q.x == p.x + p.velocity * dt)
      && (!p.alive || p.velocity == 0 ==> q.x == p.x)
    ensures s' == s.(pests := s'.pests)
  {
    s.(pests := seq(|s.pests|, i requires 0 <= i < |s.pests| =>
                      var p := s.pests[i]; if p.alive then p.(x := p.x + p.velocity * dt) else p))
  }

  // ---------------------------------------------------------------------
  // The per-frame update

  /** The velocity rule for one pest: a pest that is standing still stays
      still; any other pest is set moving left at its own speed. */
  function Steer(p: Pest): Pest {
    if p.velocity == 0 then p else p.(velocity := -p.speed)
  }

  /** Where the frame's velocity loop stops: the position of the first
      destroyed pest, or the length of the list when every pest is alive. */
  function FirstDestroyed(ps: seq<Pest>): (k: int)
    ensures 0 <= k <= |ps|
    ensures forall i :: 0 <= i < k ==> ps[i].alive
    ensures k < |ps| ==> !ps[k].alive
  {
    if ps == [] then 0
    else if !ps[0].alive then 0
    else 1 + FirstDestroyed(ps[1..])
  }

  /** The frame's velocity loop, in list order. A destroyed pest has no body,
      so reading its velocity throws: the pests before the first destroyed one
      are steered, and it and every later pest keep their velocity. */
  function SteerUntilDestroyed(ps: seq<Pest>): (qs: seq<Pest>)
    ensures |qs| == |ps|
    ensures forall i :: 0 <= i < |ps| ==> qs[i] == ps[i].(velocity := qs[i].velocity)
    ensures forall i :: 0 <= i < |ps| && ps[i].velocity == 0 ==> qs[i].velocity == 0
    ensures forall i :: 0 <= i < FirstDestroyed(ps) && ps[i].velocity != 0 ==> qs[i].velocity == -ps[i].speed
    ensures forall i :: FirstDestroyed(ps) <= i < |ps| ==> qs[i] == ps[i]
  {
    if ps == [] then []
    else if !ps[0].alive then ps
    else [Steer(ps[0])] + SteerUntilDestroyed(ps[1..])
  }

  /** The game-over scan: does some pest (live or destroyed) stand left of the breach line? */
  function AnyBreach(ps: seq<Pest>): (b: bool)
    ensures b <==> exists i :: 0 <= i < |ps| && ps[i].x < BreachX
  {
    if ps == [] then false
    else ps[0].x < BreachX || AnyBreach(ps[1..])
  }

  /** One frame: nothing once the game is over. Otherwise the velocity rule
      runs over the pests in order. If it meets a destroyed pest, the frame
      throws there, and the marigolds' scan and the breach check never run.
      If every pest is alive, the marigolds' scan runs (it has no effect), and
      the game ends when a pest has crossed the breach line. */
  function Update(s: State): (s': State)
    ensures s.gameOver ==> s' == s
    ensures !s.gameOver ==>
      (s'.gameOver <==>
         && (forall i :: 0 <= i < |s.pests| ==> s.pests[i].alive)
         && (exists i :: 0 <= i < |s.pests| && s.pests[i].x < BreachX))
    ensures |s'.pests| == |s.pests|
    ensures forall i :: 0 <= i < |s.pests| ==> s'.pests[i] == s.pests[i].(velocity := s'.pests[i].velocity)
    ensures forall i :: 0 <= i < |s.pests| && s.pests[i].velocity == 0 ==> s'.pests[i].velocity == 0
    ensures !s.gameOver ==>
      forall i :: 0 <= i < |s.pests| && s.pests[i].velocity != 0 && (forall j :: 0 <= j <= i ==> s.pests[j].alive) ==>
        s'.pests[i].velocity == -s.pests[i].speed
    ensures forall i, j :: 0 <= j <= i < |s.pests| && !s.pests[j].alive ==> s'.pests[i] == s.pests[i]
    ensures s' == s.(pests := s'.pests, gameOver := s'.gameOver)
  {
    if s.gameOver then s
    else
      var k := FirstDestroyed(s.pests);
      var steered := SteerUntilDestroyed(s.pests);
      if k < |s.pests| then s.(pests := steered)
      else s.(pests := steered, gameOver := AnyBreach(s.pests))
  }

}

=== FILE: machine.dfy ===
/** The scene as an event machine: every handler firing is one event, a run
    is a sequence of events, and the invariants of Game hold along every run. */
module Machine {

  import opened Optional
  import opened Config
  import opened Board
  import opened Entities
  import opened Game

  /** What the scene reacts to. Random lanes, physics contacts and elapsed
      time arrive as data. */
  datatype Event =
    | CardClick(kind: Kind)
    | BoardClick(px: int, py: int)
    | CompostTimer
    | SpawnTimer(row: int)
    | MarigoldTouch(pest: int, marigold: int)
    | GarlicTouch(pest: int, garlic: GarlicPlant)
    | PhysicsAdvance(dt: nat)
    | Frame

  /** What the environment guarantees about an event: a press lands on the
      canvas, the random lane is one of Phaser.Math.Between(0, 4)'s results,
      and contacts name a pest (and a marigold) that the lists hold. */
  predicate Enabled(s: State, e: Event) {
    match e
    case BoardClick(px, py) => 0 <= px < CanvasWidth && 0 <= py < CanvasHeight
    case SpawnTimer(row) => 0 <= row < Rows
    case MarigoldTouch(pi, mi) => 0 <= pi < |s.pests| && 0 <= mi < |s.marigolds|
    case GarlicTouch(pi, _) => 0 <= pi < |s.pests|
    case _ => true
  }

  /** No transition clears an occupied cell or rewrites it with another kind. */
  ghost predicate GridGrows(s: State, s': State) {
    forall r, c :: InBounds(r, c) && s.grid[r][c].Some? ==> s'.grid[r][c] == s.grid[r][c]
  }

  function Step(s: State, e: Event): (s': State)
    requires Enabled(s, e)
    ensures s.gameOver ==> s'.gameOver
    ensures GridGrows(s, s')
    ensures s.gameOver ==> s'.compost == s.compost && s'.grid == s.grid && |s'.pests| == |s.pests|
    ensures |s'.pests| >= |s.pests|
  {
    match e
    case CardClick(k) => SelectCard(s, k)
    case BoardClick(px, py) => Click(s, px, py)
    case CompostTimer => CompostTick(s)
    case SpawnTimer(row) => Spawn(s, row)
    case MarigoldTouch(pi, _) => MarigoldContact(s, pi)
    case GarlicTouch(pi, g) => GarlicContact(s, pi, g)
    case PhysicsAdvance(dt) => Advance(s, dt)
    case Frame => Update(s)
  }

  /** Every event of es is enabled in the state the events before it lead to. */
  predicate IsTrace(s: State, es: seq<Event>)
    decreases |es|
  {
    es == [] || (Enabled(s, es[0]) && IsTrace(Step(s, es[0]), es[1..]))
  }

  function Run(s: State, es: seq<Event>): State
    requires IsTrace(s, es)
    decreases |es|
  {
    if es == [] then s else Run(Step(s, es[0]), es[1..])
  }

  // ---------------------------------------------------------------------
  // The invariants

  lemma InitValid()
    ensures Valid(Init())
  {
  }

  /** A new plant goes on an empty cell, so the plant lists stay on the board
      and free of duplicates. */
  lemma ClickPreservesValid(s: State, px: int, py: int)
    requires Valid(s)
    ensures Valid(Click(s, px, py))
  {
    var s' := Click(s, px, py);
    if CanPlace(s, px, py) {
      var row, col := RowOf(py), ColOf(px);
      forall i | 0 <= i < |s.garlic|
        ensures (s.garlic[i].row, s.garlic[i].col) != (row, col)
      {
        assert s.grid[s.garlic[i].row][s.garlic[i].col] == Some(Garlic);
      }
      forall i | 0 <= i < |s.marigolds|
        ensures (s.marigolds[i].row, s.marigolds[i].col) != (row, col)
      {
        assert s.grid[s.marigolds[i].row][s.marigolds[i].col] == Some(Marigold);
      }
      assert MarigoldsOnBoard(s') by {
        forall i | 0 <= i < |s'.marigolds|
          ensures InBounds(s'.marigolds[i].row, s'.marigolds[i].col)
          ensures s'.grid[s'.marigolds[i].row][s'.marigolds[i].col] == Some(Marigold)
        {
          if i < |s.marigolds| {
            assert s'.marigolds[i] == s.marigolds[i];
          }
        }
      }
      assert GarlicOnBoard(s') by {
        forall i | 0 <= i < |s'.garlic|
          ensures InBounds(s'.garlic[i].row, s'.garlic[i].col)
          ensures s'.grid[s'.garlic[i].row][s'.garlic[i].col] == Some(Garlic)
        {
          if i < |s.garlic| {
            assert s'.garlic[i] == s.garlic[i];
          }
        }
      }
    }
  }

  lemma GarlicContactPreservesValid(s: State, pi: int, g: GarlicPlant)
    requires Valid(s)
    requires 0 <= pi < |s.pests|
    ensures Valid(GarlicContact(s, pi, g))
  {
    var s' := GarlicContact(s, pi, g);
    SpliceKeepsDistinct(s.garlic, IndexOf(s.garlic, g));
    assert s'.garlic == SpliceOne(s.garlic, IndexOf(s.garlic, g));
    forall i | 0 <= i < |s'.garlic|
      ensures InBounds(s'.garlic[i].row, s'.garlic[i].col)
      ensures s'.grid[s'.garlic[i].row][s'.garlic[i].col] == Some(Garlic)
    {
      assert s'.garlic[i] in s.garlic;
    }
  }

  lemma StepPreservesValid(s: State, e: Event)
    requires Valid(s)
    requires Enabled(s, e)
    ensures Valid(Step(s, e))
  {
    match e
    case BoardClick(px, py) => ClickPreservesValid(s, px, py);
    case SpawnTimer(row) => CellCornersMapBack(row, 0);
    case GarlicTouch(pi, g) => GarlicContactPreservesValid(s, pi, g);
    case _ =>
  }

  lemma {:induction false} RunPreservesValid(s: State, es: seq<Event>)
    requires Valid(s)
    requires IsTrace(s, es)
    ensures Valid(Run(s, es))
    decreases |es|
  {
    if es != [] {
      StepPreservesValid(s, es[0]);
      RunPreservesValid(Step(s, es[0]), es[1..]);
    }
  }

  /** Solvency along every game: compost is never negative and the selected
      card is always affordable, although placement never re-checks the price. */
  lemma {:induction false} AlwaysSolvent(es: seq<Event>)
    requires IsTrace(Init(), es)
    ensures Run(Init(), es).compost >= 0
    ensures Run(Init(), es).selected.Some? ==> Run(Init(), es).compost >= Cost(Run(Init(), es).selected.value)
  {
    InitValid();
    RunPreservesValid(Init(), es);
  }

  // ---------------------------------------------------------------------
  // The game-over flag

  /** Once set, the game-over flag stays set. */
  lemma {:induction false} GameOverIsPermanent(s: State, es: seq<Event>)
    requires IsTrace(s, es)
    requires s.gameOver
    ensures Run(s, es).gameOver
    decreases |es|
  {
    if es != [] {
      GameOverIsPermanent(Step(s, es[0]), es[1..]);
    }
  }

  /** After game over, no event changes compost, the grid or the number of pests:
      income, placement and spawning have all stopped. */
  lemma {:induction false} FrozenAfterGameOver(s: State, es: seq<Event>)
    requires IsTrace(s, es)
    requires s.gameOver
    ensures Run(s, es).compost == s.compost
    ensures Run(s, es).grid == s.grid
    ensures |Run(s, es).pests| == |s.pests|
    decreases |es|
  {
    if es != [] {
      FrozenAfterGameOver(Step(s, es[0]), es[1..]);
    }
  }

  /** An occupied cell stays occupied by the same kind for the rest of the
      game, even after the garlic on it is used up. */
  lemma {:induction false} OccupiedCellsStay(s: State, es: seq<Event>, r: int, c: int)
    requires IsTrace(s, es)
    requires InBounds(r, c) && s.grid[r][c].Some?
    ensures Run(s, es).grid[r][c] == s.grid[r][c]
    decreases |es|
  {
    if es != [] {
      OccupiedCellsStay(Step(s, es[0]), es[1..], r, c);
    }
  }

  /** No lane's last cell holds a plant. */
  predicate LastColumnEmpty(s: State) {
    forall r :: 0 <= r < Rows ==> s.grid[r][Cols - 1] == None
  }

  /** A press on the canvas never reaches the board's last column, whose
      pixels [920, 1010) lie beyond the canvas's right edge at 900. */
  lemma StepKeepsLastColumnEmpty(s: State, e: Event)
    requires LastColumnEmpty(s)
    requires Enabled(s, e)
    ensures LastColumnEmpty(Step(s, e))
  {
    match e
    case BoardClick(px, py) =>
      assert GridLeft + ColOf(px) * CellSize <= px;
    case _ =>
  }

  /** No game ever plants in the board's last column. */
  lemma {:induction false} LastColumnStaysEmpty(s: State, es: seq<Event>)
    requires IsTrace(s, es)
    requires LastColumnEmpty(s)
    ensures LastColumnEmpty(Run(s, es))
    decreases |es|
  {
    if es != [] {
      StepKeepsLastColumnEmpty(s, es[0]);
      LastColumnStaysEmpty(Step(s, es[0]), es[1..]);
    }
  }

  /** One event keeps a stopped pest listed, stopped and in place. */
  lemma StepKeepsStopped(s: State, e: Event, i: int)
    requires Enabled(s, e)
    requires 0 <= i < |s.pests| && s.pests[i].velocity == 0
    ensures i < |Step(s, e).pests|
    ensures Step(s, e).pests[i].velocity == 0
    ensures Step(s, e).pests[i].x == s.pests[i].x
  {
    match e
    case SpawnTimer(row) =>
      assert Step(s, e).pests[..|s.pests|] == s.pests;
      assert Step(s, e).pests[i] == s.pests[i];
    case _ =>
  }

  /** A pest stopped by a marigold (or one that never started) keeps
      velocity 0 and its position for the rest of the game: no handler and no
      frame ever sets it moving again. */
  lemma {:induction false} StoppedPestStaysStopped(s: State, es: seq<Event>, i: int)
    requires IsTrace(s, es)
    requires 0 <= i < |s.pests| && s.pests[i].velocity == 0
    ensures i < |Run(s, es).pests|
    ensures Run(s, es).pests[i].velocity == 0
    ensures Run(s, es).pests[i].x == s.pests[i].x
    decreases |es|
  {
    if es != [] {
      StepKeepsStopped(s, es[0], i);
      StoppedPestStaysStopped(Step(s, es[0]), es[1..], i);
    }
  }

  // ---------------------------------------------------------------------
  // Income

  function Repeat(e: Event, n: nat): (es: seq<Event>)
    ensures |es| == n
    ensures forall i :: 0 <= i < n ==> es[i] == e
  {
    if n == 0 then [] else [e] + Repeat(e, n - 1)
  }

  /** n compost ticks of a running game add exactly 25·n compost (from the
      starting 50: 75 after one tick, 100 after two). */
  lemma {:induction false} CompostAfterTicks(s: State, n: nat)
    requires !s.gameOver
    ensures IsTrace(s, Repeat(CompostTimer, n))
    ensures Run(s, Repeat(CompostTimer, n)).compost == s.compost + CompostIncome * n
    ensures !Run(s, Repeat(CompostTimer, n)).gameOver
    decreases n
  {
    if n > 0 {
      var es := Repeat(CompostTimer, n);
      assert es[1..] == Repeat(CompostTimer, n - 1);
      CompostAfterTicks(Step(s, CompostTimer), n - 1);
    }
  }

}

=== FILE: marching.dfy ===
/** Pests never start walking. A new arcade-physics sprite has velocity 0,
    the spawn handler does not set one, and the frame update only re-applies
    -speed to pests whose velocity is already non-zero. So every pest stands
    at x = 900 for ever, and the breach line is never crossed. This module
    proves that of the rules as written, and proves of the evidently intended
    spawn (one that starts the pest walking) that pests then advance and can
    end the game. */
module Marching {

  import opened Config
  import opened Board
  import opened Entities
  import opened Game
  import opened Machine

  /** No pest has ever moved: all stand still at the spawn column, and the game runs. */
  predicate Still(s: State) {
    && !s.gameOver
    && forall i :: 0 <= i < |s.pests| ==> s.pests[i].velocity == 0 && s.pests[i].x == SpawnX
  }

  lemma StepKeepsStill(s: State, e: Event)
    requires Still(s)
    requires Enabled(s, e)
    ensures Still(Step(s, e))
  {
    match e
    case Frame =>
      assert !exists i :: 0 <= i < |s.pests| && s.pests[i].x < BreachX;
    case _ =>
  }

  /** As written: in every game, whatever the player does and whatever the
      timers and the physics engine deliver, no pest ever moves and the game
      never ends. */
  lemma {:induction false} PestsNeverMove(s: State, es: seq<Event>)
    requires Still(s)
    requires IsTrace(s, es)
    ensures Still(Run(s, es))
    decreases |es|
  {
    if es != [] {
      StepKeepsStill(s, es[0]);
      PestsNeverMove(Step(s, es[0]), es[1..]);
    }
  }

  /** As written, from the start of the game: the game-over flag is never set. */
  lemma GameNeverEnds(es: seq<Event>)
    requires IsTrace(Init(), es)
    ensures !Run(Init(), es).gameOver
  {
    PestsNeverMove(Init(), es);
  }

  /** As written, one concrete witness: a freshly spawned pest, after a frame
      and any amount of physics time, is still at x = 900. */
  lemma SpawnedPestStaysPut(s: State, row: int, dt: nat)
    requires !s.gameOver
    requires 0 <= row < Rows
    ensures var t := Advance(Update(Spawn(s, row)), dt);
      |t.pests| == |s.pests| + 1 && t.pests[|s.pests|].x == SpawnX
  {
  }

  /** The evidently intended spawn: the new pest starts walking left at its speed. */
  function SpawnMarching(s: State, row: int): (s': State)
    requires 0 <= row < Rows
    ensures s.gameOver ==> s' == s
    ensures !s.gameOver ==>
      && |s'.pests| == |s.pests| + 1
      && s'.pests[..|s.pests|] == s.pests
      && var p := s'.pests[|s.pests|];
         && p.x == SpawnX && RowOf(p.y) == row && p.y == CellTop(row)
         && p.health == PestHealth && p.speed == PestSpeed
         && p.velocity == -PestSpeed && p.alive
    ensures s' == s.(pests := s'.pests)
  {
    if s.gameOver then s
    else
      CellCornersMapBack(row, 0);
      s.(pests := s.pests + [Pest(SpawnX, CellTop(row), PestHealth, PestSpeed, -PestSpeed, true)])
  }

  /** A frame never changes the velocity of a pest already walking at -20:
      it either re-applies -speed or stops before reaching it. */
  lemma FrameKeepsWalker(s: State, n: int)
    requires 0 <= n < |s.pests|
    requires s.pests[n].velocity == -PestSpeed && s.pests[n].speed == PestSpeed
    ensures Update(s).pests[n] == s.pests[n]
  {
    var s' := Update(s);
    if !s.gameOver && forall j :: 0 <= j <= n ==> s.pests[j].alive {
      assert s'.pests[n].velocity == -s.pests[n].speed;
      assert s'.pests[n] == s.pests[n].(velocity := s'.pests[n].velocity);
    }
  }

  /** With the intended spawn, the new pest keeps walking through the frame
      update and moves left by its speed for every unit of physics time. */
  lemma MarchingPestAdvances(s: State, row: int, dt: nat)
    requires !s.gameOver
    requires 0 <= row < Rows
    ensures var t := Advance(Update(SpawnMarching(s, row)), dt);
      && |t.pests| == |s.pests| + 1
      && t.pests[|s.pests|].velocity == -PestSpeed
      && t.pests[|s.pests|].x == SpawnX - PestSpeed * dt
  {
    var s1 := SpawnMarching(s, row);
    var n := |s.pests|;
    FrameKeepsWalker(s1, n);
    var s2 := Update(s1);
    assert s2.pests[n] == s1.pests[n];
    var t := Advance(s2, dt);
    assert t.pests[n].x == s2.pests[n].x + s2.pests[n].velocity * dt;
  }

  /** With the intended spawn, an unopposed pest reaches the breach line: 38
      units of physics time bring it from x = 900 to x = 140, and the next
      frame ends the game. */
  lemma MarchingPestBreaches(row: int)
    requires 0 <= row < Rows
    ensures Update(Advance(SpawnMarching(Init(), row), 38)).gameOver
  {
    var t := Advance(SpawnMarching(Init(), row), 38);
    assert t.pests[0].x == SpawnX - PestSpeed * 38 < BreachX;
  }

}

=== FILE: optional.dfy ===
/** The "nothing here" value of the game: an empty grid cell, no card selected. */
module Optional {

  datatype Option<+T> = None | Some(value: T)

}

=== FILE: wreckage.dfy ===
/** Destroyed pests stop every later frame short of the breach check. A garlic
    kill destroys the pest's sprite, which drops its physics body, but the pest
    stays in the pest list. From then on each frame's velocity loop throws when
    it reaches that pest, so the breach check never runs again and the game
    cannot end. This module proves that of the rules as written, and gives the
    evidently intended frame, which skips destroyed pests, with its property. */
module Wreckage {

  import opened Config
  import opened Entities
  import opened Game
  import opened Machine
  import opened Marching

  /** Pest i exists, has been destroyed, and the game is still running. */
  predicate Wrecked(s: State, i: int) {
    0 <= i < |s.pests| && !s.pests[i].alive && !s.gameOver
  }

  lemma StepKeepsWrecked(s: State, e: Event, i: int)
    requires Wrecked(s, i)
    requires Enabled(s, e)
    ensures Wrecked(Step(s, e), i)
  {
    match e
    case SpawnTimer(row) =>
      assert Step(s, e).pests[..|s.pests|] == s.pests;
      assert Step(s, e).pests[i] == s.pests[i];
    case Frame =>
      assert !(forall j :: 0 <= j < |s.pests| ==> s.pests[j].alive);
    case _ =>
  }

  /** As written: once any pest has been destroyed in a running game, the
      game-over flag is never set, whatever happens afterwards. */
  lemma {:induction false} NoGameOverAfterKill(s: State, es: seq<Event>, i: int)
    requires Wrecked(s, i)
    requires IsTrace(s, es)
    ensures !Run(s, es).gameOver
    ensures Wrecked(Run(s, es), i)
    decreases |es|
  {
    if es != [] {
      StepKeepsWrecked(s, es[0], i);
      NoGameOverAfterKill(Step(s, es[0]), es[1..], i);
    }
  }

  /** As written, a game in which a pest is killed: a pest spawns in lane 0,
      the player buys garlic and plants it at column 7 of lane 0 (pixel
      (830, 120), the last column on the canvas), and the garlic overlaps the
      pest. The pest is destroyed and
      the game is still running, so from here on every frame stops at it and
      the game can never end. */
  lemma GarlicKillWrecks()
    ensures var es := [SpawnTimer(0), CardClick(Kind.Garlic), BoardClick(830, 120),
                       GarlicTouch(0, GarlicPlant(0, 7))];
      IsTrace(Init(), es) && Wrecked(Run(Init(), es), 0)
  {
    var es := [SpawnTimer(0), CardClick(Kind.Garlic), BoardClick(830, 120), GarlicTouch(0, GarlicPlant(0, 7))];
    var s1 := Step(Init(), es[0]);
    var s2 := Step(s1, es[1]);
    assert s2.selected == Optional.Some(Kind.Garlic);
    var s3 := Step(s2, es[2]);
    assert CanPlace(s2, 830, 120);
    assert s3.garlic == [GarlicPlant(0, 7)];
    var s4 := Step(s3, es[3]);
    assert !s4.pests[0].alive;
    assert es[1..][1..][1..][1..] == [];
    assert Run(Init(), es) == s4;
  }

  /** The intended velocity rule: applied to live pests, destroyed ones left alone. */
  function SteerLive(ps: seq<Pest>): (qs: seq<Pest>)
    ensures |qs| == |ps|
    ensures forall i :: 0 <= i < |ps| && !ps[i].alive ==> qs[i] == ps[i]
    ensures forall i :: 0 <= i < |ps| && ps[i].alive ==> qs[i] == Steer(ps[i])
  {
    seq(|ps|, i requires 0 <= i < |ps| => if ps[i].alive then Steer(ps[i]) else ps[i])
  }

  /** The intended breach scan: does some live pest stand left of the breach line? */
  function LiveBreach(ps: seq<Pest>): (b: bool)
    ensures b <==> exists i :: 0 <= i < |ps| && ps[i].alive && ps[i].x < BreachX
  {
    if ps == [] then false
    else (ps[0].alive && ps[0].x < BreachX) || LiveBreach(ps[1..])
  }

  /** The evidently intended frame: the velocity rule and the breach check
      both skip destroyed pests, so a kill no longer stops the check. */
  function UpdateLive(s: State): (s': State)
    ensures s.gameOver ==> s' == s
    ensures !s.gameOver ==>
      (s'.gameOver <==> exists i :: 0 <= i < |s.pests| && s.pests[i].alive && s.pests[i].x < BreachX)
    ensures |s'.pests| == |s.pests|
    ensures forall i :: 0 <= i < |s.pests| ==> s'.pests[i] == s.pests[i].(velocity := s'.pests[i].velocity)
    ensures forall i :: 0 <= i < |s.pests| && s.pests[i].velocity == 0 ==> s'.pests[i].velocity == 0
    ensures !s.gameOver ==>
      forall i :: 0 <= i < |s.pests| && s.pests[i].alive && s.pests[i].velocity != 0 ==>
        s'.pests[i].velocity == -s.pests[i].speed
    ensures s' == s.(pests := s'.pests, gameOver := s'.gameOver)
  {
    if s.gameOver then s
    else s.(pests := SteerLive(s.pests), gameOver := LiveBreach(s.pests))
  }

  /** Two walking pests (the corrected spawn), a garlic bulb bought and
      planted at column 7 of lane 0, the lane 0 pest killed by it, then 38
      units of physics time: the lane 1 pest is at x = 140. */
  function KilledAndCrossed(): State {
    var s1 := SpawnMarching(Init(), 0);
    var s2 := SpawnMarching(s1, 1);
    var s3 := SelectCard(s2, Kind.Garlic);
    var s4 := Click(s3, 830, 120);
    var s5 := GarlicContact(s4, 0, GarlicPlant(0, 7));
    Advance(s5, 38)
  }

  /** The as-written frame, after the corrected spawn: a walking pest has
      crossed the breach line, but the frame stops at the destroyed pest and
      the game goes on. */
  lemma KillHidesBreach()
    ensures var s := KilledAndCrossed();
      && !s.gameOver
      && |s.pests| == 2
      && !s.pests[0].alive
      && s.pests[1].alive && s.pests[1].x < BreachX
      && !Update(s).gameOver
  {
    var s := KilledAndCrossed();
    assert s.pests[1].x == SpawnX - PestSpeed * 38;
    assert !s.pests[0].alive;
  }

  /** With the intended frame, the same state ends the game. */
  lemma LiveFrameSeesBreach()
    ensures UpdateLive(KilledAndCrossed()).gameOver
  {
    var s := KilledAndCrossed();
    assert s.pests[1].alive && s.pests[1].x < BreachX;
  }

}
